=== FILE: README.md ===
# Tree delivery order service: a verified model

The backend takes Christmas-tree delivery orders over HTTP and stores them in a
MongoDB collection `orders`. This project models its order path in Dafny:

- **Delivery area** (`DeliveryArea`): the fixed list of 23 postal codes
  served, and membership in it.
- **Email shape check** (`EmailCheck`): the regular expression
  `^[^\s@]+@[^\s@]+\.[^\s@]+$`. It is given two ways: `MatchesEmailPattern`
  says what the anchored expression matches, and `IsValidEmail` is a scan
  (no whitespace, exactly one `@`, a non-empty local part, and a `.` in the
  domain with text on both sides). `EmailPatternExact` proves that they agree
  on every string. Whitespace is JavaScript's `\s` set.
- **Request values** (`JsValues`): request bodies are JSON values, not only
  strings. The zip check uses `Array.prototype.includes`, which compares
  strictly, so only a string zip can pass. The email check is
  `RegExp.prototype.test`, which first converts its argument with `String()`.
  So a missing email is tested as `"undefined"`, and an array is tested as
  its elements joined with `","`. The model writes that conversion out.
- **Query filters** (`MongoFilter`): how `findOne({ email, customerId })`
  selects documents. A plain value asks for equality, and a null value matches
  a missing or null field. An object whose keys start with `$` is an operator
  expression. MongoDB evaluates it instead of comparing it with the field.
  The model evaluates `$eq`, `$ne`, `$gt`, `$gte`, `$lt`, `$lte`, `$exists`,
  `$in` and `$nin`.
- **Order store** (`OrderService.OrderStore`): a class whose `orders` field
  is the collection.
  - `Create` is `POST /order`. It checks the zip first and then the email. On
    success it appends one document, `{ ...data, customerId, createdAt }`, and
    replies with the same `customerId`.
  - `Lookup` is `POST /lookup` as written. The body's `email` and
    `customerId` go into the filter unchanged, and `FindOne` returns the
    first matching document. If nothing matches, the reply is "Keine
    Bestellung gefunden". `findOne` refuses a filter with an operator it
    does not know. The handler does not catch that, so its promise rejects.
    What the client gets then depends on the Express version: a 500 reply in
    Express 5, an unhandled rejection in Express 4. The model reports a
    query error.
  - `LookupLiteral` is the same lookup with both values wrapped in `$eq`
    (see "## Findings").

The generated id and the current time are parameters of `Create`. The store's
invariant `Valid()` says that every stored document has a listed string zip,
an email that passes the check, a string `customerId` and a `createdAt` date.
`Create` preserves it. The lookups rely on it: when neither query value is an
operator object, a found document carries exactly the queried email and id.
That promise rests on comparing a stored email as a whole value; an email
stored as an array is a case where MongoDB differs (see "## Left out").

`server.js` checks only the zip and the email shape, zip first. It has no
required-field checks, no city-to-zip cross-check, no delivery-date window, no
one-order-per-email rule, and no update or cancel operations, so the model has
none either.

## Model

| member | source | states |
|---|---|---|
| `DeliveryArea.IsAllowedZip` | server.js:38 | `allowedZips.includes(zip)` for a string: membership in the 23-entry list |
| `DeliveryArea.AllowedZipsShape` | server.js:19-26 | the allow-list holds exactly 23 entries, all distinct five-digit codes whose first two digits are 35 or 57 |
| `DeliveryArea.OutsideCodesRejected` | server.js:19-26 | "99999", the neighbouring "57073", the empty string and a code with a trailing space are not in the area |
| `EmailCheck.MatchesEmailPattern` | server.js:43 | the strings the anchored expression matches: a `[^\s@]+` segment, `@`, a segment, `.`, a segment, with `\s` the JavaScript whitespace set |
| `EmailCheck.IsValidEmail` | server.js:43 | the same check as a scan: no whitespace, exactly one `@`, a non-empty local part, and a `.` in the domain with text on both sides |
| `EmailCheck.EmailPatternExact` | server.js:43 | the scan `IsValidEmail` accepts a string exactly when the anchored regular expression matches it (both directions) |
| `EmailCheck.ValidEmailMatchesPattern` | server.js:43 | a string with no whitespace, one `@`, a non-empty local part and an inner dot in the domain splits into three `[^\s@]+` segments around `@` and `.` |
| `EmailCheck.PatternMatchesValidEmail` | server.js:43 | any segment-`@`-segment-`.`-segment string has no whitespace and exactly one `@`, with its `@` at the end of the local part and an inner dot after it |
| `EmailCheck.NoAtSignNotEmail` | server.js:43 | a string without `@` is rejected |
| `EmailCheck.FirstIndex` | server.js:43 | the index found is the first `@` in the string, or the length of the string when there is none |
| `JsValues.ToJsString` | server.js:43 | `String(v)` as `RegExp.prototype.test` applies it: null, booleans, integral numbers below 10^21 that a double holds exactly, in decimal, strings unchanged, arrays joined with "," (null elements empty), objects "[object Object]" |
| `JsValues.ToJsStringOrUndefined` | server.js:43 | a missing `data.email` is tested as "undefined" |
| `JsValues.NatToDecimal` | server.js:43 | `String()` of a non-negative integer below 10^21 that a double holds exactly is a non-empty digit string, without a leading zero, whose decimal value is the number |
| `JsValues.NonTextHasNoAtSign` | server.js:43 | `String()` of null, a boolean, a number or an object contains no `@` |
| `JsValues.SingletonArrayString` | server.js:43 | `String([v])` equals `String(v)` for non-null `v` |
| `OrderService.ZipCheckPasses` | server.js:37-40 | `allowedZips.includes(data.zip)`: the body is an object whose `zip` is a string in the list; numbers, missing zips and other values fail |
| `OrderService.EmailCheckPasses` | server.js:42-45 | the regular expression accepts `String(data.email)` |
| `OrderService.ValidationError` | server.js:37-45 | the only rejections are the zip and email errors; the email error is given only to a body whose zip passed; an admitted body is an object with a string zip and an email field |
| `OrderService.Message` | server.js:39-67 | the error texts "PLZ außerhalb des Liefergebiets", "Ungültige E-Mail" and "Keine Bestellung gefunden" |
| `OrderService.MessageInjective` | server.js:39-67 | the three error texts are pairwise different |
| `OrderService.CreateReply` | server.js:38-57 | the `/order` reply: status 400 with exactly `{ error: Message(e) }` for a rejection, status 200 with `success: true` and the `customerId` for a created order |
| `OrderService.CreateReplyInjective` | server.js:38-57 | two outcomes with the same reply are the same outcome: the client can tell the zip error from the email error and reads back the id |
| `OrderService.NonTextEmailRejected` | server.js:43-45 | an email given as null, a boolean, a number or an object always fails the check |
| `OrderService.SingletonArrayEmailAccepted` | server.js:43-45 | an email given as a one-element array holding a valid address passes the check |
| `OrderService.OrderRecord` | server.js:49-53 | the stored document has the submitted keys plus `customerId` and `createdAt`; every other submitted field is kept unchanged; `customerId` and `createdAt` are always the server's values, even if the body carried its own |
| `OrderService.AdmittedBodyGivesAdmittedRecord` | server.js:37-53 | a body that passes both checks is an object with a listed string zip and an email field, and the document built from it satisfies the store invariant |
| `OrderService.QueryValue` | server.js:62 | `const { email, customerId } = req.body`, with a missing property sent to the database as null |
| `MongoFilter.FieldMatches` | server.js:64 | one condition of the filter: an operator object holds when each of its operators holds of the field; any other value asks for equality, null matching a missing or null field |
| `OrderService.Matches` | server.js:64 | the filter `{ email, customerId }`: both conditions hold |
| `MongoFilter.EqConditionIsLiteral` | server.js:64 | a value wrapped in `$eq` is compared literally, even when it is itself an operator object |
| `MongoFilter.NotNullConditionExact` | server.js:64 | `{ $ne: null }` matches exactly the documents whose field is present and not null |
| `MongoFilter.ExistsConditionExact` | server.js:64 | `{ $exists: true }` matches exactly the documents that have the field, whatever its value |
| `MongoFilter.StrLessTotal` | server.js:64 | the string order used by `$gt`, `$gte`, `$lt` and `$lte` is irreflexive, asymmetric and total on distinct strings |
| `MongoFilter.StrLessTrans` | server.js:64 | that string order is transitive, so with `StrLessTotal` it is a strict total order |
| `MongoFilter.StringComparisonTrichotomy` | server.js:64 | on a stored string compared with a string, at least one of `$lt`, equality and `$gt` holds, `$lt` and `$gt` never both, and `$gte` is `$gt` or equality |
| `OrderService.NullQueryNeverMatches` | server.js:62-64 | a stored order never matches a lookup whose email or customerId is missing or null |
| `OrderService.OperatorQueryMatchesAnyOrder` | server.js:62-64 | every stored order matches the filter whose email and customerId are both `{ $exists: true }`, although its email differs from that value |
| `OrderService.OperatorQueryExposesOrders` | server.js:62-70 | in any non-empty store that filter matches a document, so `/lookup` returns an order to a caller who knows neither its email nor its id |
| `OrderService.CreatedOrderIsFound` | server.js:47-64 | after a successful create, the filter `{ email, customerId }` built from the submitted email and the returned id matches a stored document |
| `OrderService.OrderStore.constructor` | server.js:16 | the in-memory collection starts empty and satisfies the store invariant |
| `OrderService.OrderStore.Create` | server.js:34-58 | a bad zip is rejected with the zip error and leaves the store unchanged. A listed zip with a bad email is rejected with the email error and leaves the store unchanged. Otherwise exactly one record, `OrderRecord(data, id, now)`, is appended, the old records are kept, and the reply carries the stored `customerId`. It rejects exactly when `ValidationError` names an error, and with that error. The store invariant is preserved |
| `OrderService.OrderStore.FindOne` | server.js:64-68 | changes nothing. A found document is in the store and matches the filter. It reports not-found exactly when no stored document matches |
| `OrderService.OrderStore.Lookup` | server.js:61-71 | changes nothing. It gives a query error exactly when a query value is an operator object using an operator outside the modelled set or a malformed `$in`/`$nin`. A found document is in the store and matches the filter. When neither value is an operator object, its `email` and `customerId` equal the query's. It reports not-found exactly when the filter is well formed and nothing matches |
| `OrderService.OrderStore.LookupLiteral` | server.js:61-71 | the corrected lookup: never a query error. A found document's `email` and `customerId` equal the submitted values, for every body, under whole-value comparison. It reports not-found exactly when no stored document has both values equal |
| `OrderService.OrderThenLookup` | server.js:34-71 | after a successful create, both lookups with the submitted email and the returned id find a document with that email and that `customerId` |

## Left out

- `generateId` (server.js:29-31) uses `Math.random` and base-36 conversion. The id is a parameter of `Create`, and ids are not assumed to be unique.
- `new Date()` (server.js:52) is a parameter `now`, an opaque integer instant.
- MongoDB connection and collection setup (server.js:13-16), and the asynchronous `insertOne` and `findOne` calls, are replaced by an in-memory sequence. Insert failures, for example a duplicate `_id` supplied in the body, are not modelled. The `_id` that `insertOne` adds to every document is not modelled either.
- `OrderService.OrderStore.constructor` starts from an empty collection. `db.collection("orders")` (server.js:16) is a handle to a persistent collection that may already hold documents written by other code. `Valid()`, and through it the equality promises of `Lookup` and `LookupLiteral`, hold only while the store contains nothing but `/order`'s documents.
- `OrderService.OrderStore.FindOne` returns the first matching document in insertion order. Its contract promises only that the document matches, because which document `findOne` picks is up to the database.
- `MongoFilter.FieldMatches` compares a stored array as a whole value. MongoDB also matches a query value equal to one of the array's elements, and applies operators to each element. One consequence is not captured. The stored email `[null, "a@b.c"]` passes the check, because `String()` gives ",a@b.c". MongoDB's `{ email: null }` matches that array, so `/lookup` with only the right `customerId` finds the order. The model says no such lookup matches.
- `OrderService.OrderStore.Lookup`: its promise that a found document's `email` equals a plain queried value does not hold in MongoDB when the stored email is an array. The body `{"zip":"57072","email":["a@b.c","x"]}` passes the check, since `String()` gives "a@b.c,x". A later `/lookup` with `{"email":"x","customerId":<id>}` then finds that order in MongoDB, whose email is `["a@b.c","x"]` and not `"x"`. The model finds no match.
- `OrderService.OrderStore.LookupLiteral`: the same array case applies, because MongoDB's `$eq` also matches one element of a stored array. Its "for every body" equality holds only under the model's whole-value comparison. What the `$eq` wrapping does guarantee in MongoDB too is that no operator in the body is evaluated.
- `MongoFilter.NotNullConditionExact`: in MongoDB `{ $ne: null }` also excludes a stored array that holds null, such as the admitted email `[null, "a@b.c"]`. The model counts that array as present and not null. `OrderService.OperatorQueryExposesOrders` uses `{ $exists: true }` instead, which MongoDB evaluates on the field itself, not its elements, so the exposure holds for every non-empty store there too.
- `MongoFilter.IsWellFormedCondition` accepts only the operators `$eq`, `$ne`, `$gt`, `$gte`, `$lt`, `$lte`, `$exists`, `$in` and `$nin`. MongoDB also evaluates others, such as `$regex`, `$not`, `$type`, `$size`, `$all`, `$elemMatch`, `$mod`. The model treats these as a query error, as it does unknown operators. The model also treats an object mixing `$` keys and plain keys as a query error. MongoDB decides that case by the order of the keys, which the model's objects do not keep. Equality between embedded objects is likewise order-insensitive here, while MongoDB's depends on field order.
- `MongoFilter.CompareHolds` relates only numbers, strings and booleans, each with its own kind. Comparisons against arrays, objects or dates, and collations other than the binary default, are not modelled.
- Express setup, CORS, JSON parsing, HTTP status codes and `app.listen` (server.js:8-10, server.js:74-77) are left out. Only the error kinds and their messages are kept. Bodies that the JSON parser rejects, and a missing body, are not modelled.
- `JsValues.Json` models JSON numbers as integers. Fractions, `-0`, exponent notation for magnitudes of 10^21 or more and precision loss beyond 2^53 are not modelled. A fraction cannot be represented in a body at all.
- `JsValues.ToJsString` writes every integer out in full. JavaScript writes a fraction with a `.` (`"0.5"`) and a magnitude of 10^21 or more in exponent notation with a `.` (`"1.2345678901234568e+24"`). Such a number inside an email array can supply the domain's dot: `["a@b", 0.5]` is tested as `"a@b,0.5"` and passes.
- `OrderService.OrderStore.Create` therefore rejects some bodies that `server.js` stores. An example is an email `["a@b", 1234567890123456789012345]`: the model tests `"a@b,1234567890123456789012345"`, which has no dot, while JavaScript tests `"a@b,1.2345678901234568e+24"`. Bodies with fractions cannot be expressed in the model.
- `JsValues.ToJsString` gives "[object Object]" for every object. In JavaScript, `String()` throws a TypeError for an object with its own `toString` key, because a JSON value there is not callable and the inherited `valueOf` returns the object itself. This applies to the email value itself and to such an object at any depth inside arrays, since `join` converts every element. The handler's promise then rejects; the client gets a 500 reply in Express 5 or nothing in Express 4, where the rejection is unhandled. The model answers "Ungültige E-Mail" instead. An own `valueOf` key alone does not throw, because `toString` is tried first.
- The browser admin pages (admin/admin.js, admin/login.js) are DOM and `fetch` code with no order logic, and are not part of this model.

## Findings

| source | as written | input that shows it | evidently intended | confidence | as-written member | corrected member |
|---|---|---|---|---|---|---|
| server.js:62-64 | `findOne({ email, customerId })` takes both values from the JSON body unchecked, so an object such as `{ "$exists": true }` reaches MongoDB as an operator | `/lookup` with body `{"email": {"$exists": true}, "customerId": {"$exists": true}}` on any non-empty store returns a stored order | an order is returned only to a caller who supplies its stored email and customer id; both values are taken as values and never evaluated as operators, as `{ email: { $eq: email }, customerId: { $eq: customerId } }` does | high; not executed | `OrderService.OperatorQueryExposesOrders` | `OrderService.OrderStore.LookupLiteral` |

=== FILE: delivery_area.dfy ===
/** The delivery area: the fixed list of postal codes the order handler
    accepts (server.js:19-26). */
module DeliveryArea {

  const AllowedZips: seq<string> := [
    "57072", "57074", "57076", "57078", "57080",
    "57223", "57234", "57250", "57258", "57271",
    "57290", "57299",
    "57319", "57334", "57339",
    "35708", "35683", "35684", "35685",
    "35745", "57555", "57399", "57610"
  ]

  /** `allowedZips.includes(zip)` for a string argument. */
  predicate IsAllowedZip(zip: string)
  {
    zip in AllowedZips
  }

  predicate IsFiveDigitCode(z: string)
  {
    |z| == 5 && forall k :: 0 <= k < 5 ==> '0' <= z[k] <= '9'
  }

  /** The list holds 23 distinct five-digit codes, all in the 35xxx or 57xxx
      regions. */
  lemma AllowedZipsShape()
    ensures |AllowedZips| == 23
    ensures forall i, j :: 0 <= i < j < |AllowedZips| ==> AllowedZips[i] != AllowedZips[j]
    ensures forall z :: IsAllowedZip(z) ==> IsFiveDigitCode(z) && (z[..2] == "35" || z[..2] == "57")
  {
  }

  /** Codes next to the area, and the empty string, are outside it. */
  lemma OutsideCodesRejected()
    ensures !IsAllowedZip("99999") && !IsAllowedZip("57073") && !IsAllowedZip("")
    ensures !IsAllowedZip("57072 ")
  {
  }
}

=== FILE: email_check.dfy ===
/** The order handler's email shape check, the regular expression
    `^[^\s@]+@[^\s@]+\.[^\s@]+$` (server.js:43). `MatchesEmailPattern` states
    what the expression matches; `IsValidEmail` is the same check written as a
    scan, and `EmailPatternExact` proves the two agree on every string. */
module EmailCheck {

  /** `\s` in a JavaScript regular expression: ECMAScript's WhiteSpace and
      LineTerminator characters. */
  predicate IsJsWhitespace(c: char)
  {
    var n := c as int;
    (9 <= n <= 13) || n == 0x20 || n == 0xA0 || n == 0x1680 ||
    (0x2000 <= n <= 0x200A) || n == 0x2028 || n == 0x2029 ||
    n == 0x202F || n == 0x205F || n == 0x3000 || n == 0xFEFF
  }

  /** The character class `[^\s@]`. */
  predicate IsSegmentChar(c: char)
  {
    c != '@' && !IsJsWhitespace(c)
  }

  /** `[^\s@]+`: one or more characters of that class. */
  predicate IsSegment(t: string)
  {
    |t| > 0 && forall k :: 0 <= k < |t| ==> IsSegmentChar(t[k])
  }

  /** The strings the anchored expression matches: a segment, '@', a segment,
      '.', a segment, and nothing else. */
  ghost predicate MatchesEmailPattern(s: string)
  {
    exists i, j :: 0 <= i < j < |s| && s[i] == '@' && s[j] == '.' &&
      IsSegment(s[..i]) && IsSegment(s[i + 1..j]) && IsSegment(s[j + 1..])
  }

  /** Number of occurrences of `c` in `s`. */
  function Count(s: string, c: char): nat
  {
    if s == [] then 0 else (if s[0] == c then 1 else 0) + Count(s[1..], c)
  }

  /** Index of the first `c` in `s`, or `|s|` when there is none. */
  function FirstIndex(s: string, c: char): (r: nat)
    ensures r <= |s|
    ensures forall k :: 0 <= k < r ==> s[k] != c
    ensures r < |s| ==> s[r] == c
  {
    if s == [] then 0 else if s[0] == c then 0 else 1 + FirstIndex(s[1..], c)
  }

  predicate NoWhitespace(s: string)
  {
    forall k :: 0 <= k < |s| ==> !IsJsWhitespace(s[k])
  }

  /** A '.' with at least one character on each side. */
  predicate HasInnerDot(d: string)
  {
    exists k :: 0 < k < |d| - 1 && d[k] == '.'
  }

  /** No whitespace, exactly one '@', a non-empty part before it, and after it
      a '.' with text on both sides. */
  predicate IsValidEmail(s: string)
  {
    NoWhitespace(s) && Count(s, '@') == 1 &&
    var i := FirstIndex(s, '@');
    0 < i < |s| && HasInnerDot(s[i + 1..])
  }

  lemma {:induction false} CountZero(s: string, c: char)
    ensures Count(s, c) == 0 <==> forall k :: 0 <= k < |s| ==> s[k] != c
  {
    if s != [] {
      CountZero(s[1..], c);
      assert forall k :: 1 <= k < |s| ==> s[k] == s[1..][k - 1];
    }
  }

  lemma {:induction false} CountAppend(a: string, b: string, c: char)
    ensures Count(a + b, c) == Count(a, c) + Count(b, c)
  {
    if a == [] {
      assert a + b == b;
    } else {
      assert (a + b)[1..] == a[1..] + b;
      CountAppend(a[1..], b, c);
    }
  }

  /** A string without '@' fails the check. */
  lemma {:induction false} NoAtSignNotEmail(s: string)
    requires forall k :: 0 <= k < |s| ==> s[k] != '@'
    ensures !IsValidEmail(s)
  {
    CountZero(s, '@');
  }

  lemma ValidEmailMatchesPattern(s: string)
    requires IsValidEmail(s)
    ensures MatchesEmailPattern(s)
  {
    var i := FirstIndex(s, '@');
    var d := s[i + 1..];
    var k :| 0 < k < |d| - 1 && d[k] == '.';
    var j := i + 1 + k;
    // the '@' at i is the only one, so the domain holds none
    assert s == s[..i] + [s[i]] + d;
    CountAppend(s[..i] + [s[i]], d, '@');
    CountAppend(s[..i], [s[i]], '@');
    CountZero(s[..i], '@');
    CountZero(d, '@');
    assert s[j] == '.';
    assert IsSegment(s[..i]);
    var b, c := s[i + 1..j], s[j + 1..];
    assert IsSegment(b) by {
      forall m | 0 <= m < |b| ensures IsSegmentChar(b[m]) {
        assert b[m] == d[m];
      }
    }
    assert IsSegment(c) by {
      forall m | 0 <= m < |c| ensures IsSegmentChar(c[m]) {
        assert c[m] == d[k + 1 + m];
      }
    }
  }

  /** Pieces without '@' around a single '@' hold exactly one. */
  lemma CountOneAt(a: string, b: string, c: string)
    requires forall k :: 0 <= k < |a| ==> a[k] != '@'
    requires forall k :: 0 <= k < |b| ==> b[k] != '@'
    requires forall k :: 0 <= k < |c| ==> c[k] != '@'
    ensures Count(a + ['@'] + b + ['.'] + c, '@') == 1
  {
    CountZero(a, '@');
    CountZero(b, '@');
    CountZero(c, '@');
    CountAppend(a + ['@'] + b + ['.'], c, '@');
    CountAppend(a + ['@'] + b, ['.'], '@');
    CountAppend(a + ['@'], b, '@');
    CountAppend(a, ['@'], '@');
  }

  lemma SplitHasNoWhitespace(s: string, i: nat, j: nat)
    requires i < j < |s| && s[i] == '@' && s[j] == '.'
    requires IsSegment(s[..i]) && IsSegment(s[i + 1..j]) && IsSegment(s[j + 1..])
    ensures NoWhitespace(s)
  {
    var a, b, c := s[..i], s[i + 1..j], s[j + 1..];
    forall m | 0 <= m < |s| ensures !IsJsWhitespace(s[m]) {
      if m < i { assert s[m] == a[m]; }
      else if i < m < j { assert s[m] == b[m - i - 1]; }
      else if j < m { assert s[m] == c[m - j - 1]; }
    }
  }

  lemma PatternMatchesValidEmail(s: string)
    requires MatchesEmailPattern(s)
    ensures IsValidEmail(s)
  {
    var i, j :| 0 <= i < j < |s| && s[i] == '@' && s[j] == '.' &&
      IsSegment(s[..i]) && IsSegment(s[i + 1..j]) && IsSegment(s[j + 1..]);
    var a, b, c := s[..i], s[i + 1..j], s[j + 1..];
    SplitHasNoWhitespace(s, i, j);
    assert s == a + ['@'] + b + ['.'] + c;
    CountOneAt(a, b, c);
    forall k | 0 <= k < i ensures s[k] != '@' {
      assert s[k] == a[k];
    }
    assert FirstIndex(s, '@') == i;
    var d := s[i + 1..];
    assert d[j - i - 1] == '.';
  }

  /** The scan accepts exactly the strings the regular expression matches. */
  lemma EmailPatternExact(s: string)
    ensures IsValidEmail(s) <==> MatchesEmailPattern(s)
  {
    if IsValidEmail(s) {
      ValidEmailMatchesPattern(s);
    }
    if MatchesEmailPattern(s) {
      PatternMatchesValidEmail(s);
    }
  }
}

=== FILE: js_values.dfy ===
/** JSON values as Express's JSON body parser delivers them, and the string
    coercion `String(v)` that `RegExp.prototype.test` applies to its argument. */
module JsValues {

  /** A parsed JSON value. Numbers are modelled as integers. */
  datatype Json =
    | Null
    | Bool(b: bool)
    | Num(n: int)
    | Str(s: string)
    | Arr(items: seq<Json>)
    | Obj(fields: map<string, Json>)

  /** Property access `v.key` on a parsed body: only objects carry the keys
      this model reads, anything else yields `undefined` (None). */
  function Property(v: Json, key: string): Option<Json>
  {
    if v.Obj? && key in v.fields then Some(v.fields[key]) else None
  }

  datatype Option<T> = None | Some(value: T)

  predicate IsDigit(c: char)
  {
    '0' <= c <= '9'
  }

  predicate IsDigitString(s: string)
  {
    forall k :: 0 <= k < |s| ==> IsDigit(s[k])
  }

  /** The number a string of decimal digits spells, most significant first. */
  function DecimalValue(s: string): nat
    requires IsDigitString(s)
  {
    if s == [] then 0
    else DecimalValue(s[..|s| - 1]) * 10 + (s[|s| - 1] as int - '0' as int)
  }

  /** Decimal digits of a natural number, most significant first: a
      non-empty digit string, without leading zero, that spells `n`. */
  function NatToDecimal(n: nat): (r: string)
    ensures |r| > 0 && IsDigitString(r)
    ensures DecimalValue(r) == n
    ensures |r| > 1 ==> r[0] != '0'
    decreases n
  {
    var last := ('0' as int + n % 10) as char;
    if n < 10 then [last] else NatToDecimal(n / 10) + [last]
  }

  /** `String(n)` for an integral JavaScript number. */
  function IntToDecimal(n: int): string
  {
    if n < 0 then "-" + NatToDecimal(-n) else NatToDecimal(n)
  }

  /** `Array.prototype.join`: the parts separated by `sep`. */
  function Join(parts: seq<string>, sep: string): string
  {
    if |parts| == 0 then ""
    else if |parts| == 1 then parts[0]
    else parts[0] + sep + Join(parts[1..], sep)
  }

  /** `String(v)`: the string a regular expression test sees. An array joins
      its elements with ",", writing null elements as the empty string; a
      plain object becomes "[object Object]". */
  function ToJsString(v: Json): string
    decreases v
  {
    match v
    case Null => "null"
    case Bool(b) => if b then "true" else "false"
    case Num(n) => IntToDecimal(n)
    case Str(s) => s
    case Arr(items) =>
      Join(seq(|items|, i requires 0 <= i < |items| =>
                 if items[i].Null? then "" else ToJsString(items[i])), ",")
    case Obj(_) => "[object Object]"
  }

  /** `String(undefined)`, for a property that is absent. */
  function ToJsStringOrUndefined(p: Option<Json>): string
  {
    match p
    case None => "undefined"
    case Some(v) => ToJsString(v)
  }

  /** A one-element array coerces to the coercion of its element. */
  lemma SingletonArrayString(v: Json)
    requires !v.Null?
    ensures ToJsString(Arr([v])) == ToJsString(v)
  {
  }

  /** The coercion of a number, null, a boolean or an object never holds '@'. */
  lemma {:induction false} NonTextHasNoAtSign(v: Json)
    requires v.Null? || v.Bool? || v.Num? || v.Obj?
    ensures forall k :: 0 <= k < |ToJsString(v)| ==> ToJsString(v)[k] != '@'
  {
    match v
    case Null =>
      assert ToJsString(v) == ['n', 'u', 'l', 'l'];
    case Bool(b) =>
      if b {
        assert ToJsString(v) == ['t', 'r', 'u', 'e'];
      } else {
        assert ToJsString(v) == ['f', 'a', 'l', 's', 'e'];
      }
    case Num(n) =>
      var s := ToJsString(v);
      if n < 0 {
        assert s == "-" + NatToDecimal(-n);
        forall k | 0 <= k < |s| ensures s[k] != '@' {
          if k > 0 { assert s[k] == NatToDecimal(-n)[k - 1]; }
        }
      }
    case Obj(_) =>
      assert ToJsString(v) ==
        ['[', 'o', 'b', 'j', 'e', 'c', 't', ' ', 'O', 'b', 'j', 'e', 'c', 't', ']'];
  }
}

=== FILE: mongo_filter.dfy ===
/** Documents of the `orders` collection and how a `findOne` filter of the
    form `{ key: value }` selects them. A plain value asks for equality. An
    object whose keys start with '$' is a query operator: MongoDB does not
    compare it with the field, it evaluates it. */
module MongoFilter {
  import opened JsValues

  /** `new Date()`, taken as an opaque instant. */
  type Timestamp = int

  /** A stored field: a value copied from the request, or the server's Date. */
  datatype Field = JsonField(value: Json) | DateField(at: Timestamp)

  /** A document of the collection. */
  type Document = map<string, Field>

  function FieldValue(d: Document, key: string): Option<Field>
  {
    if key in d then Some(d[key]) else None
  }

  /** Equality with a query value. A null query value (the driver sends
      `undefined` as null too) matches a missing or null field. */
  predicate EqualsValue(f: Option<Field>, v: Json)
  {
    if v.Null? then f.None? || f == Some(JsonField(Null)) else f == Some(JsonField(v))
  }

  predicate IsOperatorKey(k: string)
  {
    |k| > 0 && k[0] == '$'
  }

  /** A query value that MongoDB reads as an operator expression. */
  predicate IsOperatorObject(q: Json)
  {
    q.Obj? && exists k :: k in q.fields && IsOperatorKey(k)
  }

  /** The operators this model evaluates. */
  const ModelledOperators: set<string> :=
    {"$eq", "$ne", "$gt", "$gte", "$lt", "$lte", "$exists", "$in", "$nin"}

  /** `$in` and `$nin` need an array without operator expressions in it. */
  predicate IsOperatorArgument(op: string, arg: Json)
  {
    (op == "$in" || op == "$nin") ==>
      arg.Arr? && forall i :: 0 <= i < |arg.items| ==> !IsOperatorObject(arg.items[i])
  }

  /** A query value `findOne` accepts: a plain value, or an operator
      expression made only of known operators with usable arguments. */
  predicate IsWellFormedCondition(q: Json)
  {
    IsOperatorObject(q) ==>
      forall op :: op in q.fields ==>
        op in ModelledOperators && IsOperatorArgument(op, q.fields[op])
  }

  /** Truthiness of an `$exists` argument. */
  predicate TrueValue(v: Json)
  {
    match v
    case Null => false
    case Bool(b) => b
    case Num(n) => n != 0
    case _ => true
  }

  /** Binary string order: lexicographic on code points, which is the order
      of the UTF-8 bytes. */
  predicate StrLess(a: string, b: string)
  {
    if a == [] then b != []
    else if b == [] then false
    else if a[0] != b[0] then a[0] < b[0]
    else StrLess(a[1..], b[1..])
  }

  /** Comparison operators only relate values of the same kind. */
  predicate SameBracket(a: Json, b: Json)
  {
    (a.Num? && b.Num?) || (a.Str? && b.Str?) || (a.Bool? && b.Bool?)
  }

  predicate Less(a: Json, b: Json)
    requires SameBracket(a, b)
  {
    if a.Num? then a.n < b.n
    else if a.Str? then StrLess(a.s, b.s)
    else !a.b && b.b
  }

  /** `$gt`, `$gte`, `$lt`, `$lte`. Against null, `$gte` and `$lte` behave
      as equality with null and `$gt`, `$lt` match nothing. */
  predicate CompareHolds(op: string, f: Option<Field>, arg: Json)
  {
    if arg.Null? then (op == "$gte" || op == "$lte") && EqualsValue(f, Null)
    else
      f.Some? && f.value.JsonField? && SameBracket(f.value.value, arg) &&
      var v := f.value.value;
      if op == "$gt" then Less(arg, v)
      else if op == "$gte" then !Less(v, arg)
      else if op == "$lt" then Less(v, arg)
      else if op == "$lte" then !Less(arg, v)
      else false
  }

  predicate OperatorHolds(op: string, arg: Json, f: Option<Field>)
  {
    if op == "$eq" then EqualsValue(f, arg)
    else if op == "$ne" then !EqualsValue(f, arg)
    else if op == "$exists" then f.Some? == TrueValue(arg)
    else if op == "$in" then
      arg.Arr? && exists i :: 0 <= i < |arg.items| && EqualsValue(f, arg.items[i])
    else if op == "$nin" then
      arg.Arr? && !exists i :: 0 <= i < |arg.items| && EqualsValue(f, arg.items[i])
    else CompareHolds(op, f, arg)
  }

  /** The condition `{ key: q }`: every operator of an operator expression
      holds, or else the field equals `q`. */
  predicate FieldMatches(d: Document, key: string, q: Json)
  {
    var f := FieldValue(d, key);
    if IsOperatorObject(q) then
      forall op :: op in q.fields ==> OperatorHolds(op, q.fields[op], f)
    else EqualsValue(f, q)
  }

  /** `{ $eq: v }`: the condition that compares with `v` literally. */
  function EqCondition(v: Json): (q: Json)
    ensures IsOperatorObject(q) && IsWellFormedCondition(q)
  {
    var q := Obj(map["$eq" := v]);
    assert "$eq" in q.fields && IsOperatorKey("$eq");
    q
  }

  /** `{ $ne: null }`: the condition that asks only for a present, non-null
      field. */
  function NotNullCondition(): (q: Json)
    ensures IsOperatorObject(q) && IsWellFormedCondition(q)
  {
    var q := Obj(map["$ne" := Null]);
    assert "$ne" in q.fields && IsOperatorKey("$ne");
    q
  }

  /** `{ $exists: true }`: the condition that asks only for a present field,
      whatever its value. */
  function ExistsCondition(): (q: Json)
    ensures IsOperatorObject(q) && IsWellFormedCondition(q)
  {
    var q := Obj(map["$exists" := Bool(true)]);
    assert "$exists" in q.fields && IsOperatorKey("$exists");
    q
  }

  /** A `$eq` wrapper compares literally, whatever the value is, operator
      objects included. */
  lemma EqConditionIsLiteral(d: Document, key: string, v: Json)
    ensures FieldMatches(d, key, EqCondition(v)) <==> EqualsValue(FieldValue(d, key), v)
  {
    var q := EqCondition(v);
    assert q.fields.Keys == {"$eq"};
  }

  /** `{ $ne: null }` matches exactly the documents whose field is present
      and not null. */
  lemma NotNullConditionExact(d: Document, key: string)
    ensures FieldMatches(d, key, NotNullCondition()) <==>
              key in d && d[key] != JsonField(Null)
  {
    var q := NotNullCondition();
    assert q.fields.Keys == {"$ne"};
  }

  /** `{ $exists: true }` matches exactly the documents that have the field. */
  lemma ExistsConditionExact(d: Document, key: string)
    ensures FieldMatches(d, key, ExistsCondition()) <==> key in d
  {
    var q := ExistsCondition();
    assert q.fields.Keys == {"$exists"};
  }

  /** `StrLess` is transitive. */
  lemma {:induction false} StrLessTrans(a: string, b: string, c: string)
    requires StrLess(a, b) && StrLess(b, c)
    ensures StrLess(a, c)
  {
    if a != [] && b != [] && c != [] && a[0] == b[0] && b[0] == c[0] {
      StrLessTrans(a[1..], b[1..], c[1..]);
    }
  }

  /** `StrLess` is irreflexive, asymmetric and total on distinct strings;
      with `StrLessTrans` it is a strict total order, so the four comparisons
      split every pair of strings as intended. */
  lemma {:induction false} StrLessTotal(a: string, b: string)
    ensures !(StrLess(a, b) && StrLess(b, a))
    ensures a != b ==> StrLess(a, b) || StrLess(b, a)
    ensures !StrLess(a, a)
  {
    if a != [] && b != [] && a[0] == b[0] {
      StrLessTotal(a[1..], b[1..]);
      if a != b {
        assert a == [a[0]] + a[1..] && b == [b[0]] + b[1..];
      }
    } else if a != [] {
      StrLessTotal(a[1..], a[1..]);
    }
  }

  /** On a stored string, `$lt`, equality and `$gt` against a string split
      every case: at least one holds, `$lt` and `$gt` never both, and `$gte`
      is `$gt` or equality. */
  lemma {:induction false} StringComparisonTrichotomy(t: string, s: string)
    ensures var f := Some(JsonField(Str(t)));
      CompareHolds("$lt", f, Str(s)) || EqualsValue(f, Str(s)) || CompareHolds("$gt", f, Str(s))
    ensures var f := Some(JsonField(Str(t)));
      !(CompareHolds("$lt", f, Str(s)) && CompareHolds("$gt", f, Str(s)))
    ensures var f := Some(JsonField(Str(t)));
      CompareHolds("$gte", f, Str(s)) <==> CompareHolds("$gt", f, Str(s)) || EqualsValue(f, Str(s))
  {
    StrLessTotal(t, s);
  }
}

=== FILE: order_service.dfy ===
/** The order handlers of server.js: `/order` validates the body, builds the
    order document and inserts it; `/lookup` finds an order by email and
    customer id. The `orders` collection is an in-memory sequence of
    documents; the generated id and the clock are parameters. */
module OrderService {
  import opened JsValues
  import opened EmailCheck
  import opened DeliveryArea
  import opened MongoFilter

  datatype OrderError = ZipOutsideArea | InvalidEmail | NotFound

  /** The `error` text of each rejection. */
  function Message(e: OrderError): string
  {
    match e
    case ZipOutsideArea => "PLZ außerhalb des Liefergebiets"
    case InvalidEmail => "Ungültige E-Mail"
    case NotFound => "Keine Bestellung gefunden"
  }

  /** The `/order` reply: `{ success: true, customerId }` or `{ error }`. */
  datatype CreateResponse = Created(customerId: string) | Rejected(error: OrderError)

  /** An HTTP reply: a status code and a JSON body. */
  datatype Reply = Reply(status: nat, body: Json)

  /** What `/order` sends: status 400 with `{ error }` naming the rejection,
      or the default status 200 with `{ success: true, customerId }`. */
  function CreateReply(r: CreateResponse): (reply: Reply)
    ensures reply.body.Obj?
    ensures r.Rejected? <==> reply.status == 400
    ensures r.Created? <==> reply.status == 200
    ensures r.Rejected? ==> reply.body.fields == map["error" := Str(Message(r.error))]
    ensures r.Created? ==>
              "success" in reply.body.fields && reply.body.fields["success"] == Bool(true) &&
              "customerId" in reply.body.fields &&
              reply.body.fields["customerId"] == Str(r.customerId)
  {
    match r
    case Rejected(e) => Reply(400, Obj(map["error" := Str(Message(e))]))
    case Created(id) => Reply(200, Obj(map["success" := Bool(true), "customerId" := Str(id)]))
  }

  /** Distinct outcomes give distinct replies: the client can tell the zip
      error from the email error by the text alone, and reads back the id. */
  lemma {:induction false} CreateReplyInjective(r1: CreateResponse, r2: CreateResponse)
    requires CreateReply(r1) == CreateReply(r2)
    ensures r1 == r2
  {
    if r1.Created? && r2.Created? {
      assert CreateReply(r1).body.fields["customerId"] == Str(r1.customerId);
    } else if r1.Rejected? && r2.Rejected? {
      assert CreateReply(r1).body.fields["error"] == Str(Message(r1.error));
      assert CreateReply(r2).body.fields["error"] == Str(Message(r2.error));
      MessageInjective(r1.error, r2.error);
    }
  }

  /** The three error texts differ. */
  lemma MessageInjective(a: OrderError, b: OrderError)
    requires Message(a) == Message(b)
    ensures a == b
  {
  }

  /** The `/lookup` outcome: the found document, `{ error }`, or a filter
      that `findOne` refuses. The handler does not catch that rejection; what
      the client then gets depends on the Express version (a 500 reply in
      Express 5, an unhandled rejection in Express 4). */
  datatype LookupResponse = Found(order: Document) | Failed(error: OrderError) | QueryError

  /** `allowedZips.includes(data.zip)`: strict equality, so only a string
      that is in the list passes. */
  predicate ZipCheckPasses(body: Json)
  {
    var zip := Property(body, "zip");
    zip.Some? && zip.value.Str? && IsAllowedZip(zip.value.s)
  }

  /** `/.../.test(data.email)`: the regular expression sees `String(data.email)`. */
  predicate EmailCheckPasses(body: Json)
  {
    IsValidEmail(ToJsStringOrUndefined(Property(body, "email")))
  }

  /** The rejection `/order` answers with, if any. An admitted body is an
      object with a string zip and an email field; the email error is only
      given to a body whose zip passed, since the zip is checked first. */
  function ValidationError(body: Json): (r: Option<OrderError>)
    ensures r.Some? ==> r.value == ZipOutsideArea || r.value == InvalidEmail
    ensures r == Some(InvalidEmail) ==> ZipCheckPasses(body)
    ensures r.None? ==> body.Obj? && "zip" in body.fields && body.fields["zip"].Str? &&
                        "email" in body.fields
  {
    if !ZipCheckPasses(body) then Some(ZipOutsideArea)
    else if !EmailCheckPasses(body) then Some(InvalidEmail)
    else None
  }

  /** `{ ...data, customerId, createdAt: new Date() }`. */
  function OrderRecord(data: map<string, Json>, customerId: string, now: Timestamp): (d: Document)
    ensures d.Keys == data.Keys + {"customerId", "createdAt"}
    ensures forall k :: k in data && k != "customerId" && k != "createdAt" ==>
              d[k] == JsonField(data[k])
    ensures d["customerId"] == JsonField(Str(customerId))
    ensures d["createdAt"] == DateField(now)
  {
    (map k | k in data :: JsonField(data[k]))
      ["customerId" := JsonField(Str(customerId))]
      ["createdAt" := DateField(now)]
  }

  /** The filter `{ email, customerId }`. */
  predicate Matches(d: Document, email: Json, customerId: Json)
  {
    FieldMatches(d, "email", email) && FieldMatches(d, "customerId", customerId)
  }

  predicate HasMatch(orders: seq<Document>, email: Json, customerId: Json)
  {
    exists i :: 0 <= i < |orders| && Matches(orders[i], email, customerId)
  }

  /** A destructured property of the lookup body, with `undefined` sent as null. */
  function QueryValue(body: Json, key: string): Json
  {
    match Property(body, key)
    case None => Null
    case Some(v) => v
  }

  /** What every document `/order` inserts satisfies. */
  predicate IsAdmittedRecord(d: Document)
  {
    "zip" in d && d["zip"].JsonField? && d["zip"].value.Str? &&
    IsAllowedZip(d["zip"].value.s) &&
    "email" in d && d["email"].JsonField? && IsValidEmail(ToJsString(d["email"].value)) &&
    "customerId" in d && d["customerId"].JsonField? && d["customerId"].value.Str? &&
    "createdAt" in d && d["createdAt"].DateField?
  }

  /** A body that passes validation is an object with a listed string zip and
      an email field, and the document built from it is an admitted record. */
  lemma {:induction false} AdmittedBodyGivesAdmittedRecord(body: Json, customerId: string, now: Timestamp)
    requires ValidationError(body) == None
    ensures body.Obj? && "zip" in body.fields && "email" in body.fields
    ensures body.fields["zip"].Str? && IsAllowedZip(body.fields["zip"].s)
    ensures IsAdmittedRecord(OrderRecord(body.fields, customerId, now))
  {
  }

  /** Neither a null nor a number, boolean or object email passes the check:
      only strings and arrays (which coerce by joining) can. */
  lemma {:induction false} NonTextEmailRejected(v: Json)
    requires v.Null? || v.Bool? || v.Num? || v.Obj?
    ensures !IsValidEmail(ToJsString(v))
  {
    NonTextHasNoAtSign(v);
    NoAtSignNotEmail(ToJsString(v));
  }

  /** A one-element array holding a valid address passes the check too, since
      `String(["a@b.c"])` is "a@b.c". */
  lemma SingletonArrayEmailAccepted(s: string)
    requires IsValidEmail(s)
    ensures IsValidEmail(ToJsString(Arr([Str(s)])))
  {
    SingletonArrayString(Str(s));
  }

  /** A stored order never matches a query whose email or customer id is
      missing or null: an admitted record has both fields, not null. */
  lemma {:induction false} NullQueryNeverMatches(d: Document, email: Json, customerId: Json)
    requires IsAdmittedRecord(d)
    requires Matches(d, email, customerId)
    ensures !email.Null? && !customerId.Null?
  {
    if email.Null? {
      NonTextEmailRejected(Null);
    }
  }

  /** The order just created is found again by its email and the returned id. */
  lemma {:induction false} CreatedOrderIsFound(orders: seq<Document>, body: Json, customerId: string, now: Timestamp)
    requires ValidationError(body) == None
    ensures body.Obj? && "email" in body.fields
    ensures HasMatch(orders + [OrderRecord(body.fields, customerId, now)],
                     body.fields["email"], Str(customerId))
  {
    AdmittedBodyGivesAdmittedRecord(body, customerId, now);
    var all := orders + [OrderRecord(body.fields, customerId, now)];
    var email := body.fields["email"];
    if email.Null? || email.Obj? {
      NonTextEmailRejected(email);
    }
    assert Matches(all[|orders|], email, Str(customerId));
  }

  /** The filter as written, fed with `{ $exists: true }` for both values,
      matches every stored order: the caller needs to know neither the email
      nor the customer id. */
  lemma OperatorQueryMatchesAnyOrder(d: Document)
    requires IsAdmittedRecord(d)
    ensures Matches(d, ExistsCondition(), ExistsCondition())
    ensures d["email"] != JsonField(ExistsCondition())
  {
    ExistsConditionExact(d, "email");
    ExistsConditionExact(d, "customerId");
    if d["email"] == JsonField(ExistsCondition()) {
      NonTextEmailRejected(ExistsCondition());
    }
  }

  /** Hence `/lookup` with that body finds an order in any non-empty store. */
  lemma {:induction false} OperatorQueryExposesOrders(orders: seq<Document>)
    requires |orders| > 0
    requires forall i :: 0 <= i < |orders| ==> IsAdmittedRecord(orders[i])
    ensures HasMatch(orders, ExistsCondition(), ExistsCondition())
  {
    OperatorQueryMatchesAnyOrder(orders[0]);
  }

  /** The `orders` collection. */
  class OrderStore {
    var orders: seq<Document>

    /** Every stored document went through `/order`'s checks. */
    ghost predicate Valid()
      reads this
    {
      forall i :: 0 <= i < |orders| ==> IsAdmittedRecord(orders[i])
    }

    constructor ()
      ensures Valid() && orders == []
    {
      orders := [];
    }

    /** `POST /order`: the zip check, then the email check, then one insert. */
    method Create(body: Json, freshId: string, now: Timestamp) returns (r: CreateResponse)
      requires Valid()
      modifies this
      ensures Valid()
      ensures !ZipCheckPasses(body) ==>
                r == Rejected(ZipOutsideArea) && orders == old(orders)
      ensures ZipCheckPasses(body) && !EmailCheckPasses(body) ==>
                r == Rejected(InvalidEmail) && orders == old(orders)
      ensures ZipCheckPasses(body) && EmailCheckPasses(body) ==>
                body.Obj? && r == Created(freshId) &&
                orders == old(orders) + [OrderRecord(body.fields, freshId, now)]
      ensures r.Rejected? <==> ValidationError(body).Some?
      ensures r.Rejected? ==> ValidationError(body) == Some(r.error)
      ensures r.Created? ==> orders[|orders| - 1]["customerId"] == JsonField(Str(r.customerId))
    {
      if !ZipCheckPasses(body) {
        return Rejected(ZipOutsideArea);
      }
      if !EmailCheckPasses(body) {
        return Rejected(InvalidEmail);
      }
      var customerId := freshId;
      AdmittedBodyGivesAdmittedRecord(body, customerId, now);
      var order := OrderRecord(body.fields, customerId, now);
      orders := orders + [order];
      r := Created(customerId);
    }

    /** `findOne(filter)`: the first document matching both conditions. */
    method FindOne(email: Json, customerId: Json) returns (r: LookupResponse)
      ensures !r.QueryError?
      ensures r.Found? ==> r.order in orders && Matches(r.order, email, customerId)
      ensures r.Failed? <==> !HasMatch(orders, email, customerId)
      ensures r.Failed? ==> r.error == NotFound
    {
      var i := 0;
      while i < |orders|
        invariant 0 <= i <= |orders|
        invariant forall k :: 0 <= k < i ==> !Matches(orders[k], email, customerId)
      {
        if Matches(orders[i], email, customerId) {
          return Found(orders[i]);
        }
        i := i + 1;
      }
      return Failed(NotFound);
    }

    /** `POST /lookup` as written: the body's `email` and `customerId` go into
        the filter unchanged, so an object among them acts as an operator. */
    method Lookup(body: Json) returns (r: LookupResponse)
      requires Valid()
      ensures r.QueryError? <==>
                !IsWellFormedCondition(QueryValue(body, "email")) ||
                !IsWellFormedCondition(QueryValue(body, "customerId"))
      ensures r.Found? ==>
                r.order in orders &&
                Matches(r.order, QueryValue(body, "email"), QueryValue(body, "customerId"))
      ensures r.Found? && !IsOperatorObject(QueryValue(body, "email")) &&
              !IsOperatorObject(QueryValue(body, "customerId")) ==>
                body.Obj? && "email" in body.fields && "customerId" in body.fields &&
                r.order["email"] == JsonField(body.fields["email"]) &&
                r.order["customerId"] == JsonField(body.fields["customerId"])
      ensures r.Failed? <==>
                IsWellFormedCondition(QueryValue(body, "email")) &&
                IsWellFormedCondition(QueryValue(body, "customerId")) &&
                !HasMatch(orders, QueryValue(body, "email"), QueryValue(body, "customerId"))
      ensures r.Failed? ==> r.error == NotFound
    {
      var email := QueryValue(body, "email");
      var customerId := QueryValue(body, "customerId");
      if !IsWellFormedCondition(email) || !IsWellFormedCondition(customerId) {
        return QueryError;
      }
      r := FindOne(email, customerId);
      if r.Found? && !IsOperatorObject(email) && !IsOperatorObject(customerId) {
        NullQueryNeverMatches(r.order, email, customerId);
      }
    }

    /** `/lookup` with both values wrapped in `$eq`: a document is found only
        when its stored email and customer id equal the submitted values. */
    method LookupLiteral(body: Json) returns (r: LookupResponse)
      requires Valid()
      ensures !r.QueryError?
      ensures r.Found? ==>
                r.order in orders &&
                body.Obj? && "email" in body.fields && "customerId" in body.fields &&
                r.order["email"] == JsonField(body.fields["email"]) &&
                r.order["customerId"] == JsonField(body.fields["customerId"])
      ensures r.Failed? <==>
                !exists i :: 0 <= i < |orders| &&
                  EqualsValue(FieldValue(orders[i], "email"), QueryValue(body, "email")) &&
                  EqualsValue(FieldValue(orders[i], "customerId"), QueryValue(body, "customerId"))
      ensures r.Failed? ==> r.error == NotFound
    {
      var email := QueryValue(body, "email");
      var customerId := QueryValue(body, "customerId");
      forall d: Document
        ensures Matches(d, EqCondition(email), EqCondition(customerId)) <==>
                  EqualsValue(FieldValue(d, "email"), email) &&
                  EqualsValue(FieldValue(d, "customerId"), customerId)
      {
        EqConditionIsLiteral(d, "email", email);
        EqConditionIsLiteral(d, "customerId", customerId);
      }
      r := FindOne(EqCondition(email), EqCondition(customerId));
      if r.Found? {
        NullQueryNeverMatches(r.order, email, customerId);
      }
    }
  }

  /** An order placed through `/order` is found by `/lookup`, as written and
      with literal comparison, with the same email and the returned id. */
  method OrderThenLookup(store: OrderStore, body: Json, freshId: string, now: Timestamp)
    returns (created: CreateResponse, found: LookupResponse, foundLiteral: LookupResponse)
    requires store.Valid()
    modifies store
    ensures store.Valid()
    ensures created.Created? ==>
              body.Obj? && "email" in body.fields &&
              found.Found? && "email" in found.order && "customerId" in found.order &&
              found.order["email"] == JsonField(body.fields["email"]) &&
              found.order["customerId"] == JsonField(Str(freshId)) &&
              foundLiteral.Found? && "email" in foundLiteral.order &&
              "customerId" in foundLiteral.order &&
              foundLiteral.order["email"] == JsonField(body.fields["email"]) &&
              foundLiteral.order["customerId"] == JsonField(Str(freshId))
  {
    created := store.Create(body, freshId, now);
    if created.Rejected? {
      return created, Failed(NotFound), Failed(NotFound);
    }
    CreatedOrderIsFound(old(store.orders), body, freshId, now);
    var email := body.fields["email"];
    if email.Obj? {
      NonTextEmailRejected(email);
    }
    var query := Obj(map["email" := email, "customerId" := Str(freshId)]);
    assert QueryValue(query, "email") == email;
    found := store.Lookup(query);
    foundLiteral := store.LookupLiteral(query);
    assert Matches(store.orders[|store.orders| - 1], email, Str(freshId));
  }
}
